=== FILE: README.md ===
# Booking wizard of the tattoo studio site

This project models the booking page of the studio's web site
(`app/booking/page.tsx`). The page is a four-step wizard:

1. pick an artist;
2. pick a service;
3. pick a date and load its free slots, then pick a time;
4. enter the contact data, accept the privacy terms and book.

The model is an immutable page-state record (`BookingTypes.Wizard`) with one pure
function per handler. It covers:

- the selection handlers and the resets they cause (`Selection`);
- the step gate `canProceed` (`StepGate`), including JavaScript's `trim` (`JsText`);
- the forward and back buttons (`Navigation`);
- the availability load, split into a start event and an answer event (`SlotLoading`);
- the booking submission, split the same way (`Submission`).

`BookingSession` puts these together into an event machine. An event is one of:

- a press on a control that the page renders at the current step;
- the answer to a backend call that is still in flight.

For that machine it proves an invariant that holds along every run.
`BookingScenarios` proves end-to-end runs: the happy path, a failed booking followed
by a retry, and overlapping slot loads.

Where the page's behaviour may be unexpected, the model follows the code as written:

- Picking an artist does not reset the picked service.
- Picking a date only sets the date. The time is dropped when a slot load starts.
- The slot list is not cleared when a load starts.
- Slot answers have no stale-response guard. The last answer to arrive wins, even if
  it answers an older query (`SlotLoading.LastArrivalWins`,
  `BookingScenarios.LateAnswerOverwrites`).
- A successful slot load does not clear an earlier error message.
- The gate tests the date and time with `!== null`, but the submit handler tests them
  by truthiness. So an empty-string date or time passes the gate and is then refused
  with "Bitte alle Felder ausfüllen" (`StepGate.DateTimeGateIgnoresEmptyStrings`,
  `BookingSession.SubmitFromButton`).
- The submit handler does not check the contact fields. Only the disabled button does.
- While a booking request is in flight, the back button stays on screen.

## Model

| member | source | states |
|---|---|---|
| JsText.TrimStart | app/booking/page.tsx:198-201 | leading whitespace removal: the result is the suffix of the input that starts at its first non-whitespace character, and every dropped character is whitespace |
| JsText.TrimEnd | app/booking/page.tsx:198-201 | trailing whitespace removal: the result is the prefix of the input that ends at its last non-whitespace character, and every dropped character is whitespace |
| JsText.Trim | app/booking/page.tsx:198-201 | `.trim()`: the result is no longer than the input and, unless empty, starts and ends with a character that is not whitespace |
| JsText.TrimIsMiddle | app/booking/page.tsx:198-201 | `s.trim()` is the contiguous piece of `s` left after dropping the leading and trailing whitespace: every character before or after it is whitespace |
| JsText.TrimNonEmptyIff | app/booking/page.tsx:198-201 | `s.trim() !== ""` holds exactly when `s` contains a character that is not whitespace |
| StepGate.CanProceed | app/booking/page.tsx:188-207 | the gate can only hold for steps 1 to 4; any other step gives false |
| StepGate.ContactGateIff | app/booking/page.tsx:196-203 | step 4 may be left exactly when all four contact fields contain a visible character and privacy is accepted |
| StepGate.FilledIff | app/booking/page.tsx:198-201 | a contact field counts as filled exactly when it has a character that is not whitespace |
| StepGate.ContactCompleteIff | app/booking/page.tsx:197-202 | the contact data passes the trimmed-emptiness test exactly when each of the four fields has a character that is not whitespace |
| StepGate.GateReadsOnlyInputs | app/booking/page.tsx:188-207 | the gate is a function of the step and the selections, contact data and consent only; slots, flags, error and current step do not affect it |
| StepGate.DateTimeGateIgnoresEmptyStrings | app/booking/page.tsx:195 | a date given as the empty string still opens step 3, although it is falsy in JavaScript |
| Selection.SelectArtist | app/booking/page.tsx:116-122 | sets the artist and clears date, time and slots; the service, contact data, consent, step and flags are kept; step 1 is open and step 3 is closed afterwards |
| Selection.SelectService | app/booking/page.tsx:125-133 | sets the service and clears date, time and slots; the artist, contact data, consent, step and flags are kept; step 2 is open and step 3 is closed afterwards |
| Selection.SelectDate | app/booking/page.tsx:323 | picking a date sets only the date; step 3 is then open exactly when a time is already picked |
| Selection.SelectTime | app/booking/page.tsx:136-140 | picking a time sets only the time, whether or not it is an offered slot; step 3 is then open exactly when a date is picked |
| Selection.EditCustomer | app/booking/page.tsx:344 | editing the contact form changes only the contact data, and the gates of steps 1 to 3 keep their answers |
| Selection.SetPrivacy | app/booking/page.tsx:346 | the consent box changes only the consent; withdrawing it closes step 4 |
| Selection.ArtistThenServiceResetsDateTime | app/booking/page.tsx:116-133 | after picking an artist and then a service, exactly date and time remain to be picked and the slot list is empty |
| Selection.ServiceSurvivesArtistChange | app/booking/page.tsx:116-122 | re-picking the artist keeps the previously picked service |
| Navigation.NextEnabled | app/booking/page.tsx:368-373 | "Weiter" is on screen and enabled only on steps 1 to 3, and only when the gate holds |
| Navigation.BackShown | app/booking/page.tsx:355-361 | "Zurück" is on screen exactly from step 2 on |
| Navigation.Next | app/booking/page.tsx:368-375 | "Weiter" moves one step forward exactly when the step is below 4 and the gate holds, otherwise nothing happens; only the step changes and it stays within 1 to 4 |
| Navigation.Back | app/booking/page.tsx:355-363 | "Zurück" moves one step back exactly when the step is above 1; it never clears a selection, contact field or the consent |
| Navigation.ButtonsActIffOnScreen | app/booking/page.tsx:355-373 | pressing "Weiter" or "Zurück" changes the page exactly when that button is on screen and, for "Weiter", enabled |
| Navigation.BackUndoesNext | app/booking/page.tsx:355-375 | going forward and then back restores the page state |
| Navigation.NextUndoesBack | app/booking/page.tsx:355-375 | going back and then forward restores the page state when the earlier step is complete |
| SlotLoading.StartLoad | app/booking/page.tsx:96-103 | without an artist or service nothing happens and no query is sent; otherwise loading goes up, the time is dropped, the slots are kept, and a query for the picked artist, the picked service and the given date is sent |
| SlotLoading.ResolveLoad | app/booking/page.tsx:102-112 | a successful answer replaces the slots; a failure sets the availability error and keeps the slots; both end loading and leave the selections, contact data, step and booking flag alone |
| SlotLoading.LastArrivalWins | app/booking/page.tsx:96-113 | with two loads in flight answered in reverse order, the slots of the older query remain on the page |
| SlotLoading.FirstAnswerEndsLoading | app/booking/page.tsx:110-112 | the first answer ends loading even though a second query is still in flight |
| Submission.SelectionsTruthy | app/booking/page.tsx:144 | the submit handler's presence test: an empty date or time string counts as missing |
| Submission.TruthySelectionsPassGates | app/booking/page.tsx:144-195 | selections that pass the submit handler's truthiness test also pass the gates of steps 1 to 3 |
| Submission.StartSubmit | app/booking/page.tsx:143-169 | the request is sent exactly when all four selections are truthy and consent is given; a missing selection is reported before missing consent; a refusal changes only the error message; a sent request raises the busy flag, clears the error and carries the page's artist id, service id, date, time, customer data and the tracking data |
| Submission.FailureMessage | app/booking/page.tsx:182 | the shown failure message is never empty: the error's own message when it has one, and exactly the generic retry message "Fehler beim Buchen. Bitte versuchen Sie es erneut." when it has none |
| Submission.ResolveSubmit | app/booking/page.tsx:170-184 | success leads to the confirmation of the created booking's id; failure shows the message, lowers the busy flag and keeps every selection, contact field and the step |
| Submission.FailedSubmitKeepsPage | app/booking/page.tsx:143-184 | after a failed booking the selections, contact data, consent and step are as before, the gate answers as before, and pressing the button again passes local validation again |
| BookingSession.Offered | app/booking/page.tsx:279-385 | which events can happen: a control is offered only while it is rendered and enabled, and an answer only while its call is in flight; the booking button in particular only on step 4 with consent given and no booking in flight |
| BookingSession.ControlsOnTheirStep | app/booking/page.tsx:279-385 | each input control is offered only on its own step: the artist picker on 1, the service picker on 2, the date/time picker on 3, the contact form and the booking button on 4, and "Weiter" only on steps 1 to 3 |
| BookingSession.Step | app/booking/page.tsx:279-385 | an event whose control is not on screen (or whose call is not in flight) changes nothing, and only a successful booking answer leaves the wizard, onto that booking's confirmation |
| BookingSession.InitialInv | app/booking/page.tsx:31-65 | the freshly mounted page satisfies the invariant |
| BookingSession.StepKeepsInv | app/booking/page.tsx:355-375 | every event keeps the invariant: step in 1 to 4, selections of completed steps present, loading only while a query is in flight, busy exactly while a booking is in flight |
| BookingSession.RunKeepsInv | app/booking/page.tsx:355-375 | every run of events from an invariant session keeps the invariant |
| BookingSession.EarlierStepsComplete | app/booking/page.tsx:188-207 | in a reachable session every step before the current one still passes its gate |
| BookingSession.BackThenNext | app/booking/page.tsx:355-375 | in a reachable session "Zurück" then "Weiter" returns to the same page |
| BookingSession.SubmitFromButton | app/booking/page.tsx:143-152 | pressing the enabled booking button never hits the consent error, and hits the missing-fields error exactly when the date or time is the empty string |
| BookingSession.BackKeepsSelections | app/booking/page.tsx:358 | going back keeps every selection, the contact data and the consent |
| BookingSession.ReadyToBookIff | app/booking/page.tsx:143-207 | a session satisfies the invariant `Inv` and has the booking button enabled and truthy selections exactly when it is on step 4 with artist and service, a non-empty date and time, visible characters in every contact field, consent given and no booking in flight; an error message on screen plays no part |
| BookingSession.RunAppend | app/booking/page.tsx:279-385 | running two event sequences one after the other is the same as running their concatenation |
| BookingScenarios.PickArtistAndService | app/booking/page.tsx:116-133 | picking an artist, going forward, picking a service and going forward reaches step 3 with exactly those two picks |
| BookingScenarios.PickSlot | app/booking/page.tsx:96-140 | on step 3 with nothing in flight: picking a date, loading it, getting the slots and picking a time leaves date, slots and time set with loading over |
| BookingScenarios.EnterContactAndBook | app/booking/page.tsx:143-185 | from a completed step 3: going forward, filling in the contact data, accepting privacy and booking ends on the confirmation |
| BookingScenarios.HappyPath | app/booking/page.tsx:96-185 | artist, service, date, slot answer, time, contact data with consent and booking, for any values with a non-empty date and time and filled contact fields, end on the confirmation of the created booking |
| BookingScenarios.BookingFailureKeepsPage | app/booking/page.tsx:154-184 | a failed booking, with or without an error message, returns the page to its state before the press, showing the error's message or, when it has none, the generic retry message |
| BookingScenarios.ChangeTimeAndResubmit | app/booking/page.tsx:136-169 | going back, picking another time and coming forward re-enables the button; the new request differs only in the time |
| BookingScenarios.RetryWithAnotherTime | app/booking/page.tsx:136-184 | after a failed booking (with or without an error message), a new non-empty time and a second press lead to a confirmation, without re-entering artist, service or contact data |
| BookingScenarios.LateAnswerOverwrites | app/booking/page.tsx:96-113 | picking a second date while the first date's load is in flight, with answers arriving out of order, shows the second date with the first date's slots |

## Left out

- Rendering, animation, the progress stepper and the error banner (`app/booking/page.tsx:209-389`) are left out. Only which controls are on screen at each step is kept, in `BookingSession.Offered`. The steps are wrapped in `AnimatePresence mode="wait"` (`app/booking/page.tsx:277`), so a step that is leaving stays mounted during its exit animation after the step number has changed. The model assumes no input reaches a step while it is leaving the screen; for example, a late `onLoadSlots` from the leaving date/time picker, which would drop the time on step 4, is not modelled.
- The backend calls `getArtists`, `getServices`, `getAvailability` and `createBooking` are not modelled as I/O. Their outcomes are event parameters (`Fetch`: a value, or a failure message).
- Loading artists and services at mount time, with its two error messages, is left out. It is plumbing outside the wizard's state machine.
- The analytics calls (`BookingEvents.*`) are assumed never to throw, and are left out. Under that assumption they do not change the page state. Their placement would matter if one threw:
  - `dateSelected` (`app/booking/page.tsx:106`) runs inside the `try` of the slot load, after the slots were replaced; a throw would show "Fehler beim Laden der Verfügbarkeit" next to the new slots.
  - `bookingCompleted` (`app/booking/page.tsx:172-177`) runs inside the `try` of the booking, before `router.push`; a throw would skip the navigation and show an error for a booking that was created.
  - `serviceSelected` (`app/booking/page.tsx:128`) runs before the date, time and slots are reset; a throw would leave the new service picked without the reset.
  - The "customer data entered" event on reaching step 4 is left out on the same assumption.
- `getTrackingData` is an opaque parameter of the booking request. The object spread could in principle override request keys; the model does not cover that.
- Navigation to the confirmation page is modelled as the terminal `Done(bookingId)`.
- The contents of the time-slot record and the booking API types are not part of this model. `lib/api/booking` is not part of it either. A slot is an opaque start-time string.
- The date/time picker and the contact form components are not part of this model. In particular, whether the picker calls `onDateSelect` and `onLoadSlots` together is not modelled. They are separate events here.
- The artist and service selector components only forward `onSelect`. Their display formatting, and the price's `toFixed(2)`, are left out.
- React's batching of state updates is left out, and so are events racing inside one render. Each event is applied atomically to the state current at its arrival.
- The styling config, the page layout metadata and the static link constants are left out.

=== FILE: gate.dfy ===
/**
 The step gate of the booking wizard (`canProceed`): whether the current step's
 input is complete, so that the forward button (or, on the last step, the booking
 button) may be pressed.
 */
module StepGate {
  import opened BookingTypes
  import JsText

  /** A contact field counts as filled when its trimmed value is not empty. */
  predicate Filled(field: string) {
    JsText.Trim(field) != ""
  }

  /** All four contact fields are filled. */
  predicate ContactComplete(c: CustomerInfo) {
    Filled(c.firstName) && Filled(c.lastName) && Filled(c.email) && Filled(c.phone)
  }

  /** A field contains a character that is not whitespace: the meaning of `Filled`
      without reference to trimming. */
  ghost predicate HasVisibleChar(field: string) {
    exists i :: 0 <= i < |field| && !JsText.IsWhitespace(field[i])
  }

  /** Every contact field has a visible character. */
  ghost predicate ContactVisible(c: CustomerInfo) {
    HasVisibleChar(c.firstName) && HasVisibleChar(c.lastName) && HasVisibleChar(c.email) && HasVisibleChar(c.phone)
  }

  /** The contact data passes the trimmed-emptiness test exactly when every field has
      a character that is not whitespace. */
  lemma ContactCompleteIff(c: CustomerInfo)
    ensures ContactComplete(c) <==> ContactVisible(c)
  {
    FilledIff(c.firstName);
    FilledIff(c.lastName);
    FilledIff(c.email);
    FilledIff(c.phone);
  }

  /** One field is filled exactly when it has a visible character. */
  lemma FilledIff(field: string)
    ensures Filled(field) <==> HasVisibleChar(field)
  {
    JsText.TrimNonEmptyIff(field);
  }

  /** `canProceed` evaluated for `step` on the page state `w`. Only the steps 1 to 4
      can ever be left. */
  predicate CanProceed(step: int, w: Wizard)
    ensures CanProceed(step, w) ==> 1 <= step <= 4
  {
    match step
    case 1 => w.artist.Some?
    case 2 => w.service.Some?
    case 3 => w.date.Some? && w.time.Some?
    case 4 => ContactComplete(w.customer) && w.privacyAccepted
    case _ => false
  }

  /** The contact step can be left exactly when every contact field has a character
      that is not whitespace and the privacy consent is given. */
  lemma ContactGateIff(w: Wizard)
    ensures CanProceed(4, w) <==> ContactVisible(w.customer) && w.privacyAccepted
  {
    ContactCompleteIff(w.customer);
  }

  /** The gate reads, for each step, only that step's inputs: two page states that
      agree on the selections, the contact fields and the consent get the same answer,
      whatever their slots, flags, error message or current step. */
  lemma GateReadsOnlyInputs(step: int, a: Wizard, b: Wizard)
    requires PicksOf(a) == PicksOf(b)
    requires a.customer == b.customer && a.privacyAccepted == b.privacyAccepted
    ensures CanProceed(step, a) == CanProceed(step, b)
  {
  }

  /** The date/time step opens as soon as both are present, even when one of them is
      the empty string: the gate compares with null, not by truthiness. */
  lemma DateTimeGateIgnoresEmptyStrings(w: Wizard)
    requires w.date == Some("") && w.time.Some?
    ensures CanProceed(3, w)
    ensures !Truthy(w.date)
  {
  }
}

=== FILE: navigation.dfy ===
/**
 The wizard's navigation buttons: "Weiter" (forward), shown below step 4 and
 enabled only when the gate holds, and "Zurück" (back), shown above step 1.
 */
module Navigation {
  import opened BookingTypes
  import StepGate

  /** The forward button is on screen and enabled. */
  predicate NextEnabled(w: Wizard)
    ensures NextEnabled(w) ==> 1 <= w.step <= 3
  {
    w.step < 4 && StepGate.CanProceed(w.step, w)
  }

  /** The back button is on screen. */
  predicate BackShown(w: Wizard) {
    w.step > 1
  }

  /** Pressing "Weiter": one step forward when the button is enabled; a disabled or
      absent button does nothing. Nothing but the step changes, and the step never
      leaves 1 to 4. */
  function Next(w: Wizard): (r: Wizard)
    ensures NextEnabled(w) ==> r.step == w.step + 1
    ensures !NextEnabled(w) ==> r == w
    ensures r.(step := w.step) == w
    ensures 1 <= w.step <= 4 ==> 1 <= r.step <= 4
    ensures r.step > 1 ==> StepGate.CanProceed(r.step - 1, r) || r == w
  {
    if NextEnabled(w) then w.(step := w.step + 1) else w
  }

  /** Pressing "Zurück": one step back when the button is shown. Going back never
      clears a selection, a contact field or the consent. */
  function Back(w: Wizard): (r: Wizard)
    ensures BackShown(w) ==> r.step == w.step - 1
    ensures !BackShown(w) ==> r == w
    ensures r.(step := w.step) == w
    ensures 1 <= w.step <= 4 ==> 1 <= r.step <= 4
  {
    if BackShown(w) then w.(step := w.step - 1) else w
  }

  /** A button press changes the page exactly when the button is on screen (and, for
      "Weiter", enabled). */
  lemma ButtonsActIffOnScreen(w: Wizard)
    ensures Next(w) != w <==> NextEnabled(w)
    ensures Back(w) != w <==> BackShown(w)
  {
  }

  /** Going forward and then back returns to the same page state. */
  lemma BackUndoesNext(w: Wizard)
    requires NextEnabled(w)
    ensures Back(Next(w)) == w
  {
  }

  /** Going back and then forward returns to the same page state, provided the step
      being returned to was completed (which holds on every reachable page, see
      `BookingSession.Inv`). */
  lemma NextUndoesBack(w: Wizard)
    requires BackShown(w) && w.step <= 4
    requires StepGate.CanProceed(w.step - 1, w)
    ensures Next(Back(w)) == w
  {
    StepGate.GateReadsOnlyInputs(w.step - 1, w, Back(w));
  }
}

=== FILE: scenarios.dfy ===
/**
 Runs of the booking page: the effect of single events on a session, and the
 end-to-end paths a customer takes through the wizard.
 */
module BookingScenarios {
  import opened BookingTypes
  import StepGate
  import Navigation
  import Submission
  import opened BookingSession

  // Composing runs.

  /** One event at the head of a run. */
  lemma RunStep(s: Session, e: Event, rest: seq<Event>)
    ensures Run(Active(s), [e] + rest) == Run(Step(s, e), rest)
  {
    assert ([e] + rest)[1..] == rest;
  }

  /** Two events in a row. */
  lemma RunTwo(s: Session, e1: Event, e2: Event, s1: Session, p: Page)
    requires Step(s, e1) == Active(s1) && Step(s1, e2) == p
    ensures Run(Active(s), [e1, e2]) == p
  {
    assert [e1] + [e2] == [e1, e2];
    assert [e2] + [] == [e2];
    RunStep(s, e1, [e2]);
    RunStep(s1, e2, []);
  }

  // Single events.

  /** Picking an artist on step 1. */
  lemma ArtistStep(s: Session, a: Artist)
    requires s.page.step == 1
    ensures Step(s, PickArtist(a)) == Active(s.(page := s.page.(artist := Some(a), date := None, time := None, slots := [])))
  {
  }

  /** Picking a service on step 2. */
  lemma ServiceStep(s: Session, sv: Service)
    requires s.page.step == 2
    ensures Step(s, PickService(sv)) == Active(s.(page := s.page.(service := Some(sv), date := None, time := None, slots := [])))
  {
  }

  /** "Weiter", when enabled, moves one step forward and changes nothing else. */
  lemma NextStep(s: Session)
    requires Navigation.NextEnabled(s.page)
    ensures Step(s, NextPressed) == Active(s.(page := s.page.(step := s.page.step + 1)))
  {
  }

  /** "Zurück" moves one step back and changes nothing else. */
  lemma BackStep(s: Session)
    requires s.page.step > 1
    ensures Step(s, BackPressed) == Active(s.(page := s.page.(step := s.page.step - 1)))
  {
  }

  /** Picking a date on the date/time step stores it and changes nothing else. */
  lemma DateStep(s: Session, d: string)
    requires PickerShown(s.page)
    ensures Step(s, PickDate(d)) == Active(s.(page := s.page.(date := Some(d))))
  {
  }

  /** Starting a slot load on the date/time step with an artist picked. */
  lemma LoadStep(s: Session, d: string)
    requires PickerShown(s.page) && s.page.artist.Some?
    ensures Step(s, LoadSlots(d)) == Active(Session(
      s.page.(loadingSlots := true, time := None),
      s.loads + [SlotQuery(s.page.artist.value.id, s.page.service.value.id, d)],
      s.booking))
  {
  }

  /** The answer to the only query in flight arriving with slots. */
  lemma SlotsStep(s: Session, slots: seq<TimeSlot>)
    requires |s.loads| == 1
    ensures Step(s, SlotsAnswered(0, Fetched(slots))) ==
      Active(Session(s.page.(slots := slots, loadingSlots := false), [], s.booking))
  {
  }

  /** Picking a time on the date/time step stores it and changes nothing else. */
  lemma TimeStep(s: Session, t: string)
    requires PickerShown(s.page)
    ensures Step(s, PickTime(t)) == Active(s.(page := s.page.(time := Some(t))))
  {
  }

  /** Editing the contact form. */
  lemma CustomerStep(s: Session, c: CustomerInfo)
    requires ContactFormShown(s.page)
    ensures Step(s, CustomerEdited(c)) == Active(s.(page := s.page.(customer := c)))
  {
  }

  /** Ticking the privacy box. */
  lemma PrivacyStep(s: Session, accepted: bool)
    requires ContactFormShown(s.page)
    ensures Step(s, PrivacyChanged(accepted)) == Active(s.(page := s.page.(privacyAccepted := accepted)))
  {
  }

  /** Pressing the booking button with every selection present and consent given
      sends the request built from the page and raises the busy flag. */
  lemma SubmitSends(s: Session, t: TrackingData)
    requires Offered(s, SubmitPressed(t)) && Submission.SelectionsTruthy(s.page)
    ensures Step(s, SubmitPressed(t)) == Active(Session(
      s.page.(submitting := true, error := None),
      s.loads,
      Some(BookingRequest(s.page.artist.value.id, s.page.service.value.id,
        s.page.date.value, s.page.time.value, s.page.customer, t))))
  {
  }

  /** A successful booking answer ends the wizard on the new booking's confirmation. */
  lemma BookingSucceeds(s: Session, b: Booking)
    requires s.booking.Some?
    ensures Step(s, BookingAnswered(Fetched(b))) == Done(b.id)
  {
  }

  /** A failed booking answer shows its message (the generic retry message when it
      has none), lowers the busy flag and drops the request in flight; nothing else
      changes. */
  lemma BookingFails(s: Session, message: string)
    requires s.booking.Some?
    ensures Step(s, BookingAnswered(Failed(message))) ==
      Active(Session(s.page.(error := Some(Submission.FailureMessage(message)), submitting := false), s.loads, None))
  {
  }

  // End-to-end paths. Their event lists are written as concatenations of short
  // lists, one per stage, so that each stage's lemma applies through `RunAppend`;
  // a single flat list makes the verifier unroll `Run` over every event at once.

  /** Steps 1 and 2: picking an artist and a service leads to the date/time step. */
  lemma PickArtistAndService(a: Artist, sv: Service)
    ensures Run(Active(InitialSession), [PickArtist(a), NextPressed] + [PickService(sv), NextPressed])
      == Active(Session(InitialWizard.(step := 3, artist := Some(a), service := Some(sv)), [], None))
  {
    var s0 := InitialSession;
    var w0 := s0.page;
    var s1a := s0.(page := w0.(artist := Some(a)));
    var s1 := s0.(page := w0.(artist := Some(a), step := 2));
    ArtistStep(s0, a);
    NextStep(s1a);
    RunTwo(s0, PickArtist(a), NextPressed, s1a, Active(s1));
    var s2a := s1.(page := s1.page.(service := Some(sv)));
    var s2 := s1.(page := s1.page.(service := Some(sv), step := 3));
    ServiceStep(s1, sv);
    NextStep(s2a);
    RunTwo(s1, PickService(sv), NextPressed, s2a, Active(s2));
    RunAppend(Active(s0), [PickArtist(a), NextPressed], [PickService(sv), NextPressed]);
  }

  /** Step 3: picking a date, its slots arriving, and picking a time. */
  lemma PickSlot(s: Session, d: string, slots: seq<TimeSlot>, tm: string)
    requires PickerShown(s.page) && s.page.artist.Some? && s.loads == []
    ensures Run(Active(s), [PickDate(d), LoadSlots(d)] + [SlotsAnswered(0, Fetched(slots)), PickTime(tm)])
      == Active(Session(s.page.(date := Some(d), slots := slots, loadingSlots := false, time := Some(tm)), [], s.booking))
  {
    var w := s.page;
    var s3a := s.(page := w.(date := Some(d)));
    var s3 := Session(w.(date := Some(d), loadingSlots := true, time := None),
      [SlotQuery(w.artist.value.id, w.service.value.id, d)], s.booking);
    DateStep(s, d);
    LoadStep(s3a, d);
    RunTwo(s, PickDate(d), LoadSlots(d), s3a, Active(s3));
    var s4a := Session(s3.page.(slots := slots, loadingSlots := false), [], s.booking);
    var s4 := s4a.(page := s4a.page.(time := Some(tm)));
    SlotsStep(s3, slots);
    TimeStep(s4a, tm);
    RunTwo(s3, SlotsAnswered(0, Fetched(slots)), PickTime(tm), s4a, Active(s4));
    RunAppend(Active(s), [PickDate(d), LoadSlots(d)], [SlotsAnswered(0, Fetched(slots)), PickTime(tm)]);
  }

  /** From a completed step 3 with nothing in flight: forward, contact data, consent,
      booking, confirmation. */
  lemma EnterContactAndBook(s: Session, c: CustomerInfo, t: TrackingData, b: Booking)
    requires PickerShown(s.page) && s.page.artist.Some? && Truthy(s.page.date) && Truthy(s.page.time)
    requires !s.page.submitting && StepGate.ContactVisible(c)
    ensures Run(Active(s), [NextPressed, CustomerEdited(c)]
      + ([PrivacyChanged(true), SubmitPressed(t)] + [BookingAnswered(Fetched(b))])) == Done(b.id)
  {
    StepGate.ContactCompleteIff(c);
    var s5a := s.(page := s.page.(step := 4));
    var s5 := s5a.(page := s5a.page.(customer := c));
    NextStep(s);
    CustomerStep(s5a, c);
    RunTwo(s, NextPressed, CustomerEdited(c), s5a, Active(s5));
    var s6a := s5.(page := s5.page.(privacyAccepted := true));
    var w := s6a.page;
    var req := BookingRequest(w.artist.value.id, w.service.value.id, w.date.value, w.time.value, c, t);
    var s6 := Session(w.(submitting := true, error := None), s.loads, Some(req));
    PrivacyStep(s5, true);
    assert StepGate.CanProceed(4, s6a.page);
    SubmitSends(s6a, t);
    RunTwo(s5, PrivacyChanged(true), SubmitPressed(t), s6a, Active(s6));
    BookingSucceeds(s6, b);
    RunStep(s6, BookingAnswered(Fetched(b)), []);
    RunAppend(Active(s5), [PrivacyChanged(true), SubmitPressed(t)], [BookingAnswered(Fetched(b))]);
    RunAppend(Active(s), [NextPressed, CustomerEdited(c)], [PrivacyChanged(true), SubmitPressed(t)] + [BookingAnswered(Fetched(b))]);
  }

  /** The happy path: an artist, a service, a date whose slots arrive, a time, the
      contact data with consent, the booking. Whatever the values, as long as the date
      and time are non-empty and every contact field has a visible character, the
      page ends on the confirmation of the booking the backend created. */
  lemma HappyPath(a: Artist, sv: Service, d: string, slots: seq<TimeSlot>, tm: string,
                  c: CustomerInfo, t: TrackingData, b: Booking)
    requires d != "" && tm != "" && StepGate.ContactVisible(c)
    ensures Run(Active(InitialSession),
      ([PickArtist(a), NextPressed] + [PickService(sv), NextPressed])
      + (([PickDate(d), LoadSlots(d)] + [SlotsAnswered(0, Fetched(slots)), PickTime(tm)])
      + ([NextPressed, CustomerEdited(c)] + ([PrivacyChanged(true), SubmitPressed(t)] + [BookingAnswered(Fetched(b))]))))
      == Done(b.id)
  {
    var s2 := Session(InitialWizard.(step := 3, artist := Some(a), service := Some(sv)), [], None);
    var s4 := Session(s2.page.(date := Some(d), slots := slots, loadingSlots := false, time := Some(tm)), [], None);
    var steps12 := [PickArtist(a), NextPressed] + [PickService(sv), NextPressed];
    var step3 := [PickDate(d), LoadSlots(d)] + [SlotsAnswered(0, Fetched(slots)), PickTime(tm)];
    var step4 := [NextPressed, CustomerEdited(c)] + ([PrivacyChanged(true), SubmitPressed(t)] + [BookingAnswered(Fetched(b))]);
    PickArtistAndService(a, sv);
    PickSlot(s2, d, slots, tm);
    EnterContactAndBook(s4, c, t, b);
    RunAppend(Active(InitialSession), steps12, step3 + step4);
    RunAppend(Active(s2), step3, step4);
  }

  /** A failed booking leaves the page as it was before pressing the button, with
      the failure's message shown, or the generic retry message when it has none. */
  lemma BookingFailureKeepsPage(s: Session, t: TrackingData, message: string)
    requires ReadyToBook(s)
    ensures Run(Active(s), [SubmitPressed(t), BookingAnswered(Failed(message))])
      == Active(s.(page := s.page.(error := Some(Submission.FailureMessage(message)))))
  {
    ReadyToBookIff(s, t);
    var w := s.page;
    var req := BookingRequest(w.artist.value.id, w.service.value.id, w.date.value, w.time.value, w.customer, t);
    var s1 := Session(w.(submitting := true, error := None), s.loads, Some(req));
    SubmitSends(s, t);
    BookingFails(s1, message);
    RunTwo(s, SubmitPressed(t), BookingAnswered(Failed(message)), s1, Active(s.(page := w.(error := Some(Submission.FailureMessage(message))))));
  }

  /** From the contact step with the booking button enabled, going back, picking
      another time and coming forward again re-enables the button, and pressing it
      sends a request that differs from the previous one only in the time. */
  lemma ChangeTimeAndResubmit(s: Session, t: TrackingData, newTime: string)
    requires ReadyToBook(s)
    requires newTime != ""
    ensures Run(Active(s), [BackPressed, PickTime(newTime)] + [NextPressed, SubmitPressed(t)])
      == Active(Session(s.page.(time := Some(newTime), submitting := true, error := None), s.loads,
           Some(BookingRequest(s.page.artist.value.id, s.page.service.value.id,
             s.page.date.value, newTime, s.page.customer, t))))
  {
    ReadyToBookIff(s, t);
    var w := s.page;
    var s3 := s.(page := w.(step := 3));
    var s4 := s.(page := w.(step := 3, time := Some(newTime)));
    var s5 := s.(page := w.(time := Some(newTime)));
    BackStep(s);
    TimeStep(s3, newTime);
    RunTwo(s, BackPressed, PickTime(newTime), s3, Active(s4));
    NextStep(s4);
    assert StepGate.CanProceed(4, s5.page);
    SubmitSends(s5, t);
    var req := BookingRequest(w.artist.value.id, w.service.value.id, w.date.value, newTime, w.customer, t);
    var s6 := Session(w.(time := Some(newTime), submitting := true, error := None), s.loads, Some(req));
    RunTwo(s4, NextPressed, SubmitPressed(t), s5, Active(s6));
    RunAppend(Active(s), [BackPressed, PickTime(newTime)], [NextPressed, SubmitPressed(t)]);
  }

  /** The booking fails (say, because the slot was taken meanwhile); the customer goes
      back, picks another time, comes forward and books again, without re-entering the
      artist, the service or the contact data, and gets the confirmation. */
  lemma RetryWithAnotherTime(s: Session, t: TrackingData, message: string, newTime: string, b: Booking)
    requires ReadyToBook(s)
    requires newTime != ""
    ensures Run(Active(s), [SubmitPressed(t), BookingAnswered(Failed(message))]
      + (([BackPressed, PickTime(newTime)] + [NextPressed, SubmitPressed(t)]) + [BookingAnswered(Fetched(b))]))
      == Done(b.id)
  {
    var s2 := s.(page := s.page.(error := Some(Submission.FailureMessage(message))));
    BookingFailureKeepsPage(s, t, message);
    ChangeTimeAndResubmit(s2, t, newTime);
    var s6 := Run(Active(s2), [BackPressed, PickTime(newTime)] + [NextPressed, SubmitPressed(t)]).session;
    BookingSucceeds(s6, b);
    RunStep(s6, BookingAnswered(Fetched(b)), []);
    var first := [SubmitPressed(t), BookingAnswered(Failed(message))];
    var middle := [BackPressed, PickTime(newTime)] + [NextPressed, SubmitPressed(t)];
    var last := [BookingAnswered(Fetched(b))];
    RunAppend(Active(s), first, middle + last);
    RunAppend(Active(s2), middle, last);
  }

  /** The customer picks a second date on the date/time step while the first date's
      load is in flight. The second answer comes first, the first (late) answer after
      it: the page shows the second date as picked but lists the FIRST date's slots,
      because answers are applied in the order they arrive. */
  lemma LateAnswerOverwrites(s: Session, d2: string, first: seq<TimeSlot>, second: seq<TimeSlot>)
    requires PickerShown(s.page) && s.page.artist.Some? && |s.loads| == 1
    ensures Run(Active(s), [PickDate(d2), LoadSlots(d2)]
        + [SlotsAnswered(1, Fetched(second)), SlotsAnswered(0, Fetched(first))])
      == Active(Session(s.page.(date := Some(d2), time := None, slots := first, loadingSlots := false), [], s.booking))
  {
    var q1 := s.loads[0];
    var q2 := SlotQuery(s.page.artist.value.id, s.page.service.value.id, d2);
    var w := s.page.(date := Some(d2));
    var s1 := s.(page := w);
    var s2 := Session(w.(loadingSlots := true, time := None), [q1, q2], s.booking);
    var s3 := Session(w.(slots := second, loadingSlots := false, time := None), [q1], s.booking);
    var s4 := Session(w.(slots := first, loadingSlots := false, time := None), [], s.booking);
    DateStep(s, d2);
    LoadStep(s1, d2);
    assert s.loads + [q2] == [q1, q2];
    RunTwo(s, PickDate(d2), LoadSlots(d2), s1, Active(s2));
    assert Without([q1, q2], 1) == [q1];
    assert Step(s2, SlotsAnswered(1, Fetched(second))) == Active(s3);
    assert Step(s3, SlotsAnswered(0, Fetched(first))) == Active(s4);
    RunTwo(s2, SlotsAnswered(1, Fetched(second)), SlotsAnswered(0, Fetched(first)), s3, Active(s4));
    RunAppend(Active(s), [PickDate(d2), LoadSlots(d2)], [SlotsAnswered(1, Fetched(second)), SlotsAnswered(0, Fetched(first))]);
  }
}

=== FILE: selection.dfy ===
/**
 The selection handlers of the booking page: picking an artist, a service, a date,
 a time, and editing the contact form. Picking an artist or a service invalidates
 the date, the time and the slot list that were chosen for the previous pick.
 */
module Selection {
  import opened BookingTypes
  import StepGate

  /** `handleArtistSelect`: the new artist is kept; the date, the time and the
      offered slots belong to the previous artist and are dropped. The service is
      NOT dropped, so a customer going back to step 1 keeps the service. */
  function SelectArtist(w: Wizard, a: Artist): (r: Wizard)
    ensures r.artist == Some(a)
    ensures r.date == None && r.time == None && r.slots == []
    ensures r.service == w.service
    ensures r.customer == w.customer && r.privacyAccepted == w.privacyAccepted && r.step == w.step
    ensures r.loadingSlots == w.loadingSlots && r.submitting == w.submitting && r.error == w.error
    ensures StepGate.CanProceed(1, r) && !StepGate.CanProceed(3, r)
    ensures StepGate.CanProceed(2, r) == StepGate.CanProceed(2, w)
  {
    w.(artist := Some(a), date := None, time := None, slots := [])
  }

  /** `handleServiceSelect`: the new service is kept; the date, the time and the
      offered slots are dropped. The artist stays. */
  function SelectService(w: Wizard, s: Service): (r: Wizard)
    ensures r.service == Some(s)
    ensures r.date == None && r.time == None && r.slots == []
    ensures r.artist == w.artist
    ensures r.customer == w.customer && r.privacyAccepted == w.privacyAccepted && r.step == w.step
    ensures r.loadingSlots == w.loadingSlots && r.submitting == w.submitting && r.error == w.error
    ensures StepGate.CanProceed(2, r) && !StepGate.CanProceed(3, r)
    ensures StepGate.CanProceed(1, r) == StepGate.CanProceed(1, w)
  {
    w.(service := Some(s), date := None, time := None, slots := [])
  }

  /** The date picker's `onDateSelect` (the state setter itself): only the date
      changes. The time and the slot list stay until a slot load starts. */
  function SelectDate(w: Wizard, d: string): (r: Wizard)
    ensures r.date == Some(d)
    ensures r.(date := w.date) == w
    ensures StepGate.CanProceed(3, r) <==> w.time.Some?
  {
    w.(date := Some(d))
  }

  /** `handleTimeSelect`: only the time changes; the value is stored whether or not
      it is one of the offered slots. */
  function SelectTime(w: Wizard, t: string): (r: Wizard)
    ensures r.time == Some(t)
    ensures r.(time := w.time) == w
    ensures StepGate.CanProceed(3, r) <==> w.date.Some?
  {
    w.(time := Some(t))
  }

  /** The contact form's `onCustomerInfoChange`: the selections are untouched, so the
      gates of steps 1 to 3 keep their answers. */
  function EditCustomer(w: Wizard, c: CustomerInfo): (r: Wizard)
    ensures r.customer == c
    ensures r.(customer := w.customer) == w
    ensures forall k :: k != 4 ==> StepGate.CanProceed(k, r) == StepGate.CanProceed(k, w)
  {
    w.(customer := c)
  }

  /** The contact form's `onPrivacyChange`: withdrawing consent closes the last step. */
  function SetPrivacy(w: Wizard, accepted: bool): (r: Wizard)
    ensures r.privacyAccepted == accepted
    ensures r.(privacyAccepted := w.privacyAccepted) == w
    ensures !accepted ==> !StepGate.CanProceed(4, r)
    ensures forall k :: k != 4 ==> StepGate.CanProceed(k, r) == StepGate.CanProceed(k, w)
  {
    w.(privacyAccepted := accepted)
  }

  /** Picking an artist and then a service leaves exactly the date/time step to be
      redone, whatever was chosen before. */
  lemma ArtistThenServiceResetsDateTime(w: Wizard, a: Artist, s: Service)
    ensures var r := SelectService(SelectArtist(w, a), s);
      && PicksOf(r) == Picks(Some(a), Some(s), None, None)
      && r.slots == []
      && StepGate.CanProceed(1, r) && StepGate.CanProceed(2, r) && !StepGate.CanProceed(3, r)
  {
  }

  /** Re-picking the artist does not reset the service: after picking a service and
      then an artist, the service is still the picked one. */
  lemma ServiceSurvivesArtistChange(w: Wizard, s: Service, a: Artist)
    ensures SelectArtist(SelectService(w, s), a).service == Some(s)
  {
  }
}

=== FILE: session.dfy ===
/**
 The booking page as an event-driven machine. An event is a user action on a
 control that is on screen, or an answer of the backend to a call still in flight.
 The session keeps, besides the page state, the availability queries and the
 booking request that have been sent and not yet answered.
 */
module BookingSession {
  import opened BookingTypes
  import StepGate
  import Selection
  import Navigation
  import SlotLoading
  import Submission

  datatype Session = Session(page: Wizard, loads: seq<SlotQuery>, booking: Option<BookingRequest>)

  /** The page is either still running the wizard or has navigated to the
      confirmation of a booking. */
  datatype Page = Active(session: Session) | Done(bookingId: string)

  datatype Event =
    | PickArtist(artist: Artist)
    | PickService(service: Service)
    | PickDate(date: string)
    | LoadSlots(loadDate: string)
    | PickTime(time: string)
    | CustomerEdited(customer: CustomerInfo)
    | PrivacyChanged(accepted: bool)
    | NextPressed
    | BackPressed
    | SubmitPressed(tracking: TrackingData)
    | SlotsAnswered(index: nat, slotsAnswer: Fetch<seq<TimeSlot>>)
    | BookingAnswered(bookingAnswer: Fetch<Booking>)

  const InitialSession: Session := Session(InitialWizard, [], None)

  /** The contact form is on screen: step 4 with a service and a non-empty date and time. */
  predicate ContactFormShown(w: Wizard) {
    w.step == 4 && w.service.Some? && Truthy(w.date) && Truthy(w.time)
  }

  /** The date/time picker is on screen: step 3 with a service. */
  predicate PickerShown(w: Wizard) {
    w.step == 3 && w.service.Some?
  }

  /** Whether the event can happen in this session: the control it comes from is
      rendered (and enabled), or the call it answers is in flight. */
  predicate Offered(s: Session, e: Event)
    ensures Offered(s, e) && e.SubmitPressed? ==>
      s.page.step == 4 && s.page.privacyAccepted && !s.page.submitting
  {
    var w := s.page;
    match e
    case PickArtist(_) => w.step == 1
    case PickService(_) => w.step == 2
    case PickDate(_) => PickerShown(w)
    case LoadSlots(_) => PickerShown(w)
    case PickTime(_) => PickerShown(w)
    case CustomerEdited(_) => ContactFormShown(w)
    case PrivacyChanged(_) => ContactFormShown(w)
    case NextPressed => Navigation.NextEnabled(w)
    case BackPressed => Navigation.BackShown(w)
    case SubmitPressed(_) => w.step >= 4 && StepGate.CanProceed(w.step, w) && !w.submitting
    case SlotsAnswered(i, _) => i < |s.loads|
    case BookingAnswered(_) => s.booking.Some?
  }

  /** Each input control lives on one step: the pickers of steps 1 to 3, the contact
      form and the booking button are offered only on their own step, and "Weiter"
      only below step 4. */
  lemma ControlsOnTheirStep(s: Session, e: Event)
    requires Offered(s, e)
    ensures e.PickArtist? ==> s.page.step == 1
    ensures e.PickService? ==> s.page.step == 2
    ensures e.PickDate? || e.LoadSlots? || e.PickTime? ==> s.page.step == 3
    ensures e.CustomerEdited? || e.PrivacyChanged? || e.SubmitPressed? ==> s.page.step == 4
    ensures e.NextPressed? ==> 1 <= s.page.step <= 3
  {
  }

  /** Removes the `i`-th query from the queries in flight. */
  function Without(loads: seq<SlotQuery>, i: nat): (r: seq<SlotQuery>)
    requires i < |loads|
    ensures |r| == |loads| - 1
    ensures forall j :: 0 <= j < i ==> r[j] == loads[j]
    ensures forall j :: i <= j < |r| ==> r[j] == loads[j + 1]
  {
    loads[..i] + loads[i + 1..]
  }

  /** One event. An event that is not offered leaves the session as it is; only a
      successful booking answer leaves the wizard. */
  function Step(s: Session, e: Event): (r: Page)
    ensures !Offered(s, e) ==> r == Active(s)
    ensures r.Done? <==> Offered(s, e) && e.BookingAnswered? && e.bookingAnswer.Fetched?
    ensures r.Done? ==> r.bookingId == e.bookingAnswer.value.id
  {
    if !Offered(s, e) then Active(s)
    else
      var w := s.page;
      match e
      case PickArtist(a) => Active(s.(page := Selection.SelectArtist(w, a)))
      case PickService(sv) => Active(s.(page := Selection.SelectService(w, sv)))
      case PickDate(d) => Active(s.(page := Selection.SelectDate(w, d)))
      case LoadSlots(d) =>
        var started := SlotLoading.StartLoad(w, d);
        var loads := if started.query.Some? then s.loads + [started.query.value] else s.loads;
        Active(Session(started.page, loads, s.booking))
      case PickTime(t) => Active(s.(page := Selection.SelectTime(w, t)))
      case CustomerEdited(c) => Active(s.(page := Selection.EditCustomer(w, c)))
      case PrivacyChanged(b) => Active(s.(page := Selection.SetPrivacy(w, b)))
      case NextPressed => Active(s.(page := Navigation.Next(w)))
      case BackPressed => Active(s.(page := Navigation.Back(w)))
      case SubmitPressed(tracking) =>
        (match Submission.StartSubmit(w, tracking)
         case Refused(w') => Active(s.(page := w'))
         case Sent(w', req) => Active(Session(w', s.loads, Some(req))))
      case SlotsAnswered(i, answer) =>
        Active(Session(SlotLoading.ResolveLoad(w, answer), Without(s.loads, i), s.booking))
      case BookingAnswered(answer) =>
        (match Submission.ResolveSubmit(w, answer)
         case Confirmed(id) => Done(id)
         case Retry(w') => Active(Session(w', s.loads, None)))
  }

  /** A sequence of events, one after the other; a confirmed booking ends the run. */
  function Run(p: Page, events: seq<Event>): Page
    decreases |events|
  {
    if events == [] then p
    else match p
      case Done(_) => p
      case Active(s) => Run(Step(s, events[0]), events[1..])
  }

  /** What holds of every session the page can reach:
      - the step is one of 1 to 4;
      - every step before the current one was completed when it was left, and its
        selection is still present (going back keeps selections, and a selection is
        only cleared on a step before the ones that need it);
      - the loading flag is only up while some availability query is in flight;
      - the busy flag is up exactly while a booking request is in flight. */
  predicate Inv(s: Session) {
    var w := s.page;
    && 1 <= w.step <= 4
    && (w.step >= 2 ==> w.artist.Some?)
    && (w.step >= 3 ==> w.service.Some?)
    && (w.step == 4 ==> w.date.Some? && w.time.Some?)
    && (s.loads == [] ==> !w.loadingSlots)
    && (w.submitting <==> s.booking.Some?)
  }

  lemma InitialInv()
    ensures Inv(InitialSession)
  {
  }

  /** A page satisfying `Inv` on the contact step with the booking button enabled and
      all four selections truthy, stated field by field: the step is 4, the selections
      are present with a non-empty date and time, every contact field has a visible
      character, consent is given, and nothing is being booked. */
  ghost predicate ReadyToBook(s: Session) {
    var w := s.page;
    && w.step == 4 && w.artist.Some? && w.service.Some? && Truthy(w.date) && Truthy(w.time)
    && StepGate.ContactVisible(w.customer) && w.privacyAccepted
    && !w.submitting && s.booking.None?
    && (s.loads == [] ==> !w.loadingSlots)
  }

  /** `ReadyToBook` is exactly a session satisfying the invariant `Inv` whose booking
      button is on screen and enabled and whose selections pass the submit handler's
      truthiness test. */
  lemma ReadyToBookIff(s: Session, tracking: TrackingData)
    ensures ReadyToBook(s) <==>
      Inv(s) && Offered(s, SubmitPressed(tracking)) && Submission.SelectionsTruthy(s.page)
  {
    if ReadyToBook(s) {
      ReadyMeansEnabled(s, tracking);
    }
    if Inv(s) && Offered(s, SubmitPressed(tracking)) && Submission.SelectionsTruthy(s.page) {
      EnabledMeansReady(s, tracking);
    }
  }

  /** One direction of `ReadyToBookIff`. */
  lemma ReadyMeansEnabled(s: Session, tracking: TrackingData)
    requires ReadyToBook(s)
    ensures Inv(s) && Offered(s, SubmitPressed(tracking)) && Submission.SelectionsTruthy(s.page)
  {
    StepGate.ContactGateIff(s.page);
  }

  /** The other direction of `ReadyToBookIff`. */
  lemma EnabledMeansReady(s: Session, tracking: TrackingData)
    ensures Inv(s) && Offered(s, SubmitPressed(tracking)) && Submission.SelectionsTruthy(s.page) ==>
      ReadyToBook(s)
  {
    StepGate.ContactGateIff(s.page);
  }

  /** Every event keeps the invariant. */
  lemma StepKeepsInv(s: Session, e: Event)
    requires Inv(s)
    ensures Step(s, e).Active? ==> Inv(Step(s, e).session)
  {
    if Offered(s, e) && e.NextPressed? {
      var w := s.page;
      assert StepGate.CanProceed(w.step, w);
    }
  }

  /** Every run from a session that satisfies the invariant keeps it. */
  lemma {:induction false} RunKeepsInv(s: Session, events: seq<Event>)
    requires Inv(s)
    ensures Run(Active(s), events).Active? ==> Inv(Run(Active(s), events).session)
    decreases |events|
  {
    if events != [] {
      StepKeepsInv(s, events[0]);
      match Step(s, events[0])
      case Done(_) =>
      case Active(s') => RunKeepsInv(s', events[1..]);
    }
  }

  /** In a reachable session every step before the current one still passes its gate,
      so going back and forth again returns to the same page. */
  lemma EarlierStepsComplete(s: Session, k: int)
    requires Inv(s) && 1 <= k < s.page.step
    ensures StepGate.CanProceed(k, s.page)
  {
  }

  /** In a reachable session, "Zurück" followed by "Weiter" returns to the same page. */
  lemma BackThenNext(s: Session)
    requires Inv(s) && s.page.step > 1
    ensures Step(s, BackPressed).Active?
    ensures Step(Step(s, BackPressed).session, NextPressed) == Active(s)
  {
    EarlierStepsComplete(s, s.page.step - 1);
    Navigation.NextUndoesBack(s.page);
  }

  /** Pressing the booking button in a reachable session where it is on screen and
      enabled (step 4, contact fields filled, consent given, no booking in flight):
      the consent check cannot
      fail (the button is only enabled with consent), and the request is refused with
      the missing-fields message exactly when the date or the time is the empty string,
      which the gate lets through but the submit handler treats as missing. */
  lemma SubmitFromButton(s: Session, tracking: TrackingData)
    requires Inv(s) && s.page.step == 4 && !s.page.submitting
    requires StepGate.ContactVisible(s.page.customer) && s.page.privacyAccepted
    ensures var started := Submission.StartSubmit(s.page, tracking);
      && (started.Refused? <==> s.page.date == Some("") || s.page.time == Some(""))
      && (started.Refused? ==> started.page.error == Some(MissingFieldsError))
  {
    StepGate.ContactCompleteIff(s.page.customer);
    assert Offered(s, SubmitPressed(tracking));
  }

  /** Going back never clears a selection, a contact field or the consent. */
  lemma BackKeepsSelections(s: Session)
    ensures Step(s, BackPressed).Active?
    ensures PicksOf(Step(s, BackPressed).session.page) == PicksOf(s.page)
    ensures Step(s, BackPressed).session.page.customer == s.page.customer
    ensures Step(s, BackPressed).session.page.privacyAccepted == s.page.privacyAccepted
  {
  }

  /** Running two event sequences one after the other is running their concatenation. */
  lemma {:induction false} RunAppend(p: Page, a: seq<Event>, b: seq<Event>)
    ensures Run(p, a + b) == Run(Run(p, a), b)
    decreases |a|
  {
    if a == [] {
      assert a + b == b;
    } else if p.Active? {
      assert (a + b)[1..] == a[1..] + b;
      RunAppend(Step(p.session, a[0]), a[1..], b);
    } else {
      assert Run(p, a + b) == p;
      assert Run(p, a) == p;
      RunDone(p.bookingId, b);
    }
  }

  /** Once the booking is confirmed, no further event changes the page. */
  lemma RunDone(id: string, events: seq<Event>)
    ensures Run(Done(id), events) == Done(id)
  {
  }
}

=== FILE: slots.dfy ===
/**
 The availability query of the date/time step (`handleLoadSlots`), split into the
 synchronous part that runs when the load is started and the part that runs when
 the backend answers. Several loads may be in flight; each answer is applied to
 the page as it is when the answer arrives, with no check of which query it answers.
 */
module SlotLoading {
  import opened BookingTypes
  import StepGate

  /** The page after a load was started, and the query sent, if any. */
  datatype LoadStart = LoadStart(page: Wizard, query: Option<SlotQuery>)

  /** Starting a load for `date`. Without an artist or a service nothing happens and
      no query is sent. Otherwise the loading flag goes up, the time is dropped (the
      old slots stay listed until the answer comes) and a query is sent for the
      picked artist, the picked service and the given date; the date/time step is
      closed until a time is picked again. */
  function StartLoad(w: Wizard, date: string): (r: LoadStart)
    ensures (w.artist.None? || w.service.None?) ==> r == LoadStart(w, None)
    ensures w.artist.Some? && w.service.Some? ==>
      && r.query == Some(SlotQuery(w.artist.value.id, w.service.value.id, date))
      && r.page.loadingSlots
      && r.page.time == None
      && r.page.(loadingSlots := w.loadingSlots, time := w.time) == w
    ensures r.query.Some? ==> !StepGate.CanProceed(3, r.page)
  {
    if w.artist.None? || w.service.None? then
      LoadStart(w, None)
    else
      var q := SlotQuery(w.artist.value.id, w.service.value.id, date);
      LoadStart(w.(loadingSlots := true, time := None), Some(q))
  }

  /** An answer arriving. On success the slot list becomes the answer; on failure the
      availability error is shown and the slot list stays. Either way loading ends.
      The selections, the contact form, the step and the booking flag are untouched. */
  function ResolveLoad(w: Wizard, answer: Fetch<seq<TimeSlot>>): (r: Wizard)
    ensures !r.loadingSlots
    ensures answer.Fetched? ==> r.slots == answer.value && r.error == w.error
    ensures answer.Failed? ==> r.slots == w.slots && r.error == Some(AvailabilityError)
    ensures PicksOf(r) == PicksOf(w)
    ensures r.customer == w.customer && r.privacyAccepted == w.privacyAccepted
    ensures r.step == w.step && r.submitting == w.submitting
  {
    match answer
    case Fetched(slots) => w.(slots := slots, loadingSlots := false)
    case Failed(_) => w.(error := Some(AvailabilityError), loadingSlots := false)
  }

  /** Loads for two dates started one after the other, answered in reverse order:
      the page ends up listing the slots of the FIRST date while the second query
      was the last one sent. The last answer to arrive wins, not the latest query. */
  lemma LastArrivalWins(w: Wizard, d1: string, d2: string, first: seq<TimeSlot>, second: seq<TimeSlot>)
    requires w.artist.Some? && w.service.Some?
    ensures var s1 := StartLoad(w, d1);
      var s2 := StartLoad(s1.page, d2);
      var afterSecond := ResolveLoad(s2.page, Fetched(second));
      var afterFirst := ResolveLoad(afterSecond, Fetched(first));
      && s2.query == Some(SlotQuery(w.artist.value.id, w.service.value.id, d2))
      && afterFirst.slots == first
      && !afterFirst.loadingSlots
  {
  }

  /** The loading flag goes down with the first answer, even when another query is
      still in flight. */
  lemma FirstAnswerEndsLoading(w: Wizard, d1: string, d2: string, answer: Fetch<seq<TimeSlot>>)
    requires w.artist.Some? && w.service.Some?
    ensures var s2 := StartLoad(StartLoad(w, d1).page, d2);
      s2.query.Some? && !ResolveLoad(s2.page, answer).loadingSlots
  {
  }
}

=== FILE: submit.dfy ===
/**
 The booking submission (`handleSubmit`), split into the synchronous part that
 validates and sends the request, and the part that runs when the backend answers.
 */
module Submission {
  import opened BookingTypes
  import StepGate

  /** All four selections are present in the JavaScript sense: the artist and the
      service are objects, the date and the time are non-empty strings. An empty
      string counts as missing. */
  predicate SelectionsTruthy(w: Wizard)
    ensures SelectionsTruthy(w) ==> w.date != Some("") && w.time != Some("")
  {
    w.artist.Some? && w.service.Some? && Truthy(w.date) && Truthy(w.time)
  }

  /** The submit handler's test is stricter than the gates of steps 1 to 3: selections
      that pass it pass those gates, and `DateTimeGateIgnoresEmptyStrings` shows the
      converse fails. */
  lemma TruthySelectionsPassGates(w: Wizard)
    requires SelectionsTruthy(w)
    ensures StepGate.CanProceed(1, w) && StepGate.CanProceed(2, w) && StepGate.CanProceed(3, w)
  {
  }

  /** The outcome of pressing the booking button: either the request is refused
      locally (no backend call), or it is sent. */
  datatype SubmitStart =
    | Refused(page: Wizard)
    | Sent(page: Wizard, request: BookingRequest)

  /** The request carries exactly the page's selections and contact data, plus the
      attribution data read at the time of sending. */
  predicate RequestOf(req: BookingRequest, w: Wizard, tracking: TrackingData) {
    && w.artist.Some? && req.artistId == w.artist.value.id
    && w.service.Some? && req.serviceId == w.service.value.id
    && w.date.Some? && req.bookingDate == w.date.value
    && w.time.Some? && req.startTime == w.time.value
    && req.customer == w.customer
    && req.tracking == tracking
  }

  /** Pressing the booking button. A missing selection is reported first, then a
      missing consent; in both cases only the error message changes and nothing is
      sent. Otherwise the busy flag goes up, the error is cleared and a request built
      from the current page is sent. The contact fields are not checked here. */
  function StartSubmit(w: Wizard, tracking: TrackingData): (r: SubmitStart)
    ensures r.Sent? <==> SelectionsTruthy(w) && w.privacyAccepted
    ensures !SelectionsTruthy(w) ==> r.Refused? && r.page.error == Some(MissingFieldsError)
    ensures SelectionsTruthy(w) && !w.privacyAccepted ==> r.Refused? && r.page.error == Some(PrivacyError)
    ensures r.Refused? ==> r.page.(error := w.error) == w
    ensures r.Sent? ==>
      && r.page.submitting && r.page.error == None
      && r.page.(submitting := w.submitting, error := w.error) == w
      && RequestOf(r.request, w, tracking)
  {
    if !SelectionsTruthy(w) then
      Refused(w.(error := Some(MissingFieldsError)))
    else if !w.privacyAccepted then
      Refused(w.(error := Some(PrivacyError)))
    else
      var req := BookingRequest(
        w.artist.value.id, w.service.value.id, w.date.value, w.time.value, w.customer, tracking);
      Sent(w.(submitting := true, error := None), req)
  }

  /** What the page becomes when the booking call answers. */
  datatype SubmitEnd = Confirmed(bookingId: string) | Retry(page: Wizard)

  /** The message shown for a failed booking call: the error's own message, or the
      generic retry message when it has none. */
  function FailureMessage(message: string): (m: string)
    ensures m != ""
    ensures message != "" ==> m == message
    ensures message == "" ==> m == BookingFallbackError
  {
    if message != "" then message else BookingFallbackError
  }

  /** The booking call answering. On success the page navigates to the confirmation of
      the new booking. On failure the message is shown, the busy flag goes down, and
      every selection, contact field and the step stay as they are. */
  function ResolveSubmit(w: Wizard, answer: Fetch<Booking>): (r: SubmitEnd)
    ensures answer.Fetched? ==> r == Confirmed(answer.value.id)
    ensures answer.Failed? ==>
      && r.Retry?
      && r.page.error.Some? && r.page.error.value != ""
      && (answer.message != "" ==> r.page.error == Some(answer.message))
      && (answer.message == "" ==> r.page.error == Some(BookingFallbackError))
      && !r.page.submitting
      && r.page.(error := w.error, submitting := w.submitting) == w
  {
    match answer
    case Fetched(booking) => Confirmed(booking.id)
    case Failed(message) => Retry(w.(error := Some(FailureMessage(message)), submitting := false))
  }

  /** A failed booking leaves the customer where they were: the same selections,
      contact data, consent and step as before pressing the button, the busy flag is
      down, the gate gives the same answer, and pressing the button again passes the
      local validation again. */
  lemma FailedSubmitKeepsPage(w: Wizard, tracking: TrackingData, message: string)
    requires StartSubmit(w, tracking).Sent?
    ensures var after := ResolveSubmit(StartSubmit(w, tracking).page, Failed(message));
      && after.Retry?
      && PicksOf(after.page) == PicksOf(w)
      && after.page.customer == w.customer
      && after.page.privacyAccepted == w.privacyAccepted
      && after.page.step == w.step
      && !after.page.submitting
      && StepGate.CanProceed(w.step, after.page) == StepGate.CanProceed(w.step, w)
      && StartSubmit(after.page, tracking).Sent?
  {
    var after := ResolveSubmit(StartSubmit(w, tracking).page, Failed(message));
    StepGate.GateReadsOnlyInputs(w.step, w, after.page);
  }
}

=== FILE: text.dfy ===
/**
 JavaScript's `String.prototype.trim`, as far as the contact-step gate needs it:
 it strips the ECMAScript WhiteSpace and LineTerminator code points from both ends.
 */
module JsText {

  /** The code points ECMAScript counts as WhiteSpace or LineTerminator:
      TAB, LF, VT, FF, CR, SPACE, NBSP, the BOM, the space separators (category Zs)
      and the line and paragraph separators. */
  predicate IsWhitespace(c: char) {
    || ('\t' <= c <= '\r')
    || c == ' '
    || c == '\U{A0}'
    || c == '\U{1680}'
    || ('\U{2000}' <= c <= '\U{200A}')
    || c == '\U{2028}'
    || c == '\U{2029}'
    || c == '\U{202F}'
    || c == '\U{205F}'
    || c == '\U{3000}'
    || c == '\U{FEFF}'
  }

  /** Drops leading whitespace: the result is the suffix of `s` that starts at its
      first non-whitespace character (empty when there is none). */
  function TrimStart(s: string): (r: string)
    ensures |r| <= |s| && r == s[|s| - |r|..]
    ensures forall i :: 0 <= i < |s| - |r| ==> IsWhitespace(s[i])
    ensures r == [] || !IsWhitespace(r[0])
  {
    if |s| > 0 && IsWhitespace(s[0]) then TrimStart(s[1..]) else s
  }

  /** Drops trailing whitespace: the result is the prefix of `s` that ends at its
      last non-whitespace character (empty when there is none). */
  function TrimEnd(s: string): (r: string)
    ensures |r| <= |s| && r == s[..|r|]
    ensures forall i :: |r| <= i < |s| ==> IsWhitespace(s[i])
    ensures r == [] || !IsWhitespace(r[|r| - 1])
  {
    if |s| > 0 && IsWhitespace(s[|s| - 1]) then TrimEnd(s[..|s| - 1]) else s
  }

  /** `s.trim()`: the part of `s` between its first and its last visible character
      (`TrimStart` and `TrimEnd` say which characters are dropped). */
  function Trim(s: string): (r: string)
    ensures |r| <= |s|
    ensures r == [] || (!IsWhitespace(r[0]) && !IsWhitespace(r[|r| - 1]))
  {
    TrimEnd(TrimStart(s))
  }

  /** `s.trim()` is a contiguous piece of `s`, and every character dropped before or
      after it is whitespace. */
  lemma TrimIsMiddle(s: string)
    ensures var r := Trim(s);
      var i := |s| - |TrimStart(s)|;
      && 0 <= i <= i + |r| <= |s|
      && r == s[i..i + |r|]
      && (forall k :: 0 <= k < i ==> IsWhitespace(s[k]))
      && (forall k :: i + |r| <= k < |s| ==> IsWhitespace(s[k]))
  {
    var t := TrimStart(s);
    var r := Trim(s);
    var i := |s| - |t|;
    assert t == s[i..];
    assert r == t[..|r|];
    assert r == s[i..i + |r|];
    forall k | i + |r| <= k < |s|
      ensures IsWhitespace(s[k])
    {
      assert s[k] == t[k - i];
    }
  }

  /** `s.trim() !== ""` holds exactly when `s` has a character that is not whitespace. */
  lemma TrimNonEmptyIff(s: string)
    ensures Trim(s) != "" <==> exists i :: 0 <= i < |s| && !IsWhitespace(s[i])
  {
    var t := TrimStart(s);
    if Trim(s) != "" {
      var k := |s| - |t|;
      assert t[0] == s[k];
    }
  }
}

=== FILE: types.dfy ===
/**
 The data of the booking page: what the customer has picked so far, the contact
 form, and the flags the page keeps while it talks to the booking backend.
 */
module BookingTypes {

  /** A value that may be absent; `null` in the page's React state. */
  datatype Option<+T> = None | Some(value: T)

  /** A tattoo artist. Only the identifier takes part in the booking logic. */
  datatype Artist = Artist(id: string, name: string)

  /** A bookable service. Its price is display data and is not modelled. */
  datatype Service = Service(id: string, name: string)

  /** One offered start time, as returned by the availability query. */
  datatype TimeSlot = TimeSlot(startTime: string)

  /** The four contact fields of the last step. */
  datatype CustomerInfo = CustomerInfo(firstName: string, lastName: string, email: string, phone: string)

  /** Attribution data (UTM parameters, referrer) read when the booking is sent; opaque here. */
  datatype TrackingData = TrackingData(fields: map<string, string>)

  /** The arguments of one availability query. */
  datatype SlotQuery = SlotQuery(artistId: string, serviceId: string, date: string)

  /** The request body of a booking call. */
  datatype BookingRequest = BookingRequest(
    artistId: string,
    serviceId: string,
    bookingDate: string,
    startTime: string,
    customer: CustomerInfo,
    tracking: TrackingData)

  /** What the backend answers for a created booking. */
  datatype Booking = Booking(id: string, bookingNumber: string)

  /** The outcome of a backend call: a value, or a failure carrying the error's message
      (the empty string stands for an error without a message). */
  datatype Fetch<+T> = Fetched(value: T) | Failed(message: string)

  /** The state of the booking page. `step` is the current wizard step (1 to 4). */
  datatype Wizard = Wizard(
    step: int,
    artist: Option<Artist>,
    service: Option<Service>,
    date: Option<string>,
    time: Option<string>,
    slots: seq<TimeSlot>,
    loadingSlots: bool,
    customer: CustomerInfo,
    privacyAccepted: bool,
    submitting: bool,
    error: Option<string>)

  /** The four ordered selections, projected out of the page state. */
  datatype Picks = Picks(artist: Option<Artist>, service: Option<Service>, date: Option<string>, time: Option<string>)

  function PicksOf(w: Wizard): Picks {
    Picks(w.artist, w.service, w.date, w.time)
  }

  /** The error messages the page shows. */
  const MissingFieldsError: string := "Bitte alle Felder ausfüllen"
  const PrivacyError: string := "Bitte stimmen Sie den Datenschutzbestimmungen zu"
  const BookingFallbackError: string := "Fehler beim Buchen. Bitte versuchen Sie es erneut."
  const AvailabilityError: string := "Fehler beim Laden der Verfügbarkeit"

  const EmptyCustomer: CustomerInfo := CustomerInfo("", "", "", "")

  /** The page as it is mounted: step 1, nothing picked, nothing loading. */
  const InitialWizard: Wizard :=
    Wizard(1, None, None, None, None, [], false, EmptyCustomer, false, false, None)

  /** JavaScript truthiness of a `string | null` value: null and "" are falsy. */
  predicate Truthy(o: Option<string>) {
    o.Some? && o.value != ""
  }
}
